=== FILE: README.md ===
# promptlog: a Dafny model of the versioned prompt store

promptlog is a command-line tool that keeps a version history of text prompts.
Each prompt is stored as one JSON record. The record holds the prompt's name,
its creation and last-update instants, and its versions, oldest first. A
version holds its number, a timestamp, an optional note, the content and a
fingerprint of that content.

This project models the core of that tool as pure Dafny functions and proves
what its code promises:

- **The storage engine** (`storage.dfy`). The prompts directory is a map from
  name to record, and the backup directory is a second map. It covers save
  (create or append), the duplicate check, lookup by version number, backup,
  delete, rename and the newest-first listing. The operations themselves are
  specified for any store. Separate lemmas state a record invariant: the
  record is stored under its own name, has at least one version, its versions
  are numbered 1..N in order, and every stored fingerprint is that of its
  content. `SavePreservesInvariant`, `BackupAndDeletePreserveInvariant` and
  `RenamePreservesInvariant` prove that the updates keep it.
  `IsDuplicateOfEqualContent`, `GetVersionContiguous` and
  `LookupsAfterUpdates` use it. The listing's contracts do not depend on it.
- **Name validation and the secret detector** (`security.dfy`). Each regular
  expression is written out as a predicate over the text. The detector is an
  ordered first-match scan over the four rules.
- **Relative time labels** (`time.dfy`). These are the floor-division
  thresholds on elapsed milliseconds that give "just now", "N minutes ago",
  "N hours ago" and "N days ago", and the point past which a calendar date is
  printed instead.
- **Argument resolution in the commands** (`show.dfy`, `export.dfy`,
  `diff.dfy`):
  - the `name@N` parser, of which show and export each have a copy;
  - the default-to-latest target version;
  - the JSON projection of an exported version;
  - the diff command's choice and validation of the pair of versions.
- **JavaScript's `parseInt(s, 10)`** (`numbers.dfy`). It skips blanks, takes an
  optional sign and then the leading decimal digits. `NaN` is `None`. This
  module also has the decimal printing of counts, and `String.prototype.split`
  on one character (`strings.dfy`).

The content fingerprint is a function parameter `hash`. In the tool it is the
first 8 hex characters of the SHA-256 digest. The parameter
is the same deterministic function at every call. The clock is an integer
parameter `now`. The directory listing order is a parameter `files`.

## Model

| member | source | states |
|---|---|---|
| Strings.Split | src/commands/show.ts:10 | `split` on one character gives one more segment than there are separators; no segment contains the separator; joining the segments with it gives back the input |
| Strings.SplitFirstSegment | src/commands/show.ts:10-22 | the first segment of a split is either the whole input or the text before its first separator, and is followed in the input by that separator |
| Numbers.NatToString | src/lib/time.ts:20-22 | the decimal text of a count is non-empty, all digits, denotes that count, and starts with `0` only when it is exactly `"0"` |
| Numbers.IntToString | src/lib/time.ts:20-22 | the decimal text a template literal prints for an integer: a minus sign before the digits of a negative number, none otherwise |
| Numbers.ParseInt | src/commands/show.ts:15 | `parseInt(s, 10)`: skip ECMAScript white space and line terminators, read an optional `+` or `-`, then the longest run of decimal digits; NaN when that run is empty (also used at src/commands/diff.ts:34-39) |
| Numbers.LeadingDigits | src/commands/show.ts:15 | the digits `parseInt` reads are the longest digit prefix of the text |
| Numbers.ParseIntDigits | src/commands/show.ts:15 | `parseInt` of blanks, an optional sign, digits and then a non-digit is the signed value of the digits; the trailing text is ignored |
| Numbers.ParseIntAfterBlanks | src/commands/show.ts:15 | `parseInt` skips the leading white space and line terminators and reads on from the first other character |
| Numbers.ParseIntNoDigits | src/commands/show.ts:15-16 | when no digit follows the blanks and the sign, `parseInt` gives NaN |
| Numbers.ParseIntOfNatToString | src/lib/time.ts:20-22 | the printed decimal text of a count, followed by a non-digit, parses back to that count |
| Numbers.ParseIntNonNumeric | src/commands/diff.ts:38 | text that starts with a letter or with punctuation other than a sign, `"undefined"` included, parses to NaN |
| Numbers.ParseIntTrailingText | src/commands/show.ts:15 | `"3x"` after any blanks parses to 3 |
| Numbers.ParseIntZero | src/commands/show.ts:15-16 | `"0"` parses to 0, which the parser then rejects as a version |
| Numbers.ParseIntNegative | src/commands/show.ts:15-16 | `"-2"` parses to -2 |
| Numbers.ParseIntPlus | src/commands/show.ts:15 | `"+12"` parses to 12 |
| Numbers.ParseIntWord | src/commands/show.ts:15-16 | `"abc"` parses to NaN |
| Storage.GetPrompt | src/lib/storage.ts:30-37 | the lookup finds a record exactly when one is stored under the name, and it is that record |
| Storage.Find | src/lib/storage.ts:135 | `find` returns the first element that satisfies the predicate, or nothing when none does |
| Storage.FindAgrees | src/lib/storage.ts:187 | `find` gives the same answer on two lists that agree on the predicate position by position |
| Storage.GetVersion | src/lib/storage.ts:186-188 | getVersion returns the first version, in list order, with the requested number, and returns nothing exactly when no version carries that number |
| Storage.GetVersionContiguous | src/lib/storage.ts:186-188 | under the numbering invariant, version n is at index n-1 for 1 ≤ n ≤ N, and the lookup fails exactly outside 1..N, 0 and N+1 included |
| Storage.IsDuplicate | src/lib/storage.ts:130-137 | a missing prompt gives null; otherwise the result is null exactly when no stored fingerprint matches the content's, and is the number of the first matching version |
| Storage.IsDuplicateOfEqualContent | src/lib/storage.ts:130-137 | in a valid store, content equal to stored version k is reported as a duplicate of version k or of an earlier one |
| Storage.Save | src/lib/storage.ts:52-95 | on a new name, adds exactly that key, with one version numbered 1, the note as given, and creation, update and version time all `now`, and returns 1; on an existing name, appends version N+1 with `updatedAt := now`, keeps the earlier versions, the creation time, the name and every other key, and returns N+1 |
| Storage.SavePreservesInvariant | src/lib/storage.ts:64-94 | saving keeps every record valid, and the returned number is that of the version just written, which holds the saved content |
| Storage.SaveTwiceFromFresh | src/lib/storage.ts:64-94 | two saves under a fresh name give versions 1 and 2 holding the two contents, keep the first save's creation time, and do not move `updatedAt` back when the clock does not go back (`t1 <= t2`) |
| Storage.Delete | src/lib/storage.ts:154-159 | delete removes only the key for the name, and changes nothing when there is none |
| Storage.Backup | src/lib/storage.ts:142-149 | backup copies the record over its backup when it exists, keeps every other backup, and changes nothing otherwise |
| Storage.BackupThenDelete | src/lib/storage.ts:142-159 | backing up and then deleting leaves the pre-delete record in the backups and no record in the store |
| Storage.BackupAndDeletePreserveInvariant | src/lib/storage.ts:142-159 | delete and backup keep both directories valid |
| Storage.Rename | src/lib/storage.ts:164-181 | rename fails as not-found when the old name is absent, and as already-exists when the new name is taken, which includes renaming to the same name; it succeeds otherwise, moving the record with only its name changed and keeping every other key |
| Storage.RenamePreservesInvariant | src/lib/storage.ts:164-181 | a successful rename keeps the store valid, with the moved record stored under its new name |
| Storage.LookupsAfterUpdates | src/lib/storage.ts:30-37 | after a save the name holds a record whose latest version has the saved content; after a delete it holds none; after a successful rename the old name holds none and the new name holds the old record renamed |
| Storage.Summarize | src/lib/storage.ts:113-117 | a listing row: the record's own name field, its number of versions and its update time |
| Storage.Listing | src/lib/storage.ts:106-118 | the summaries are collected one per file in directory order, with the record's name, its number of versions and its update time |
| Storage.InsertByRecency | src/lib/storage.ts:121 | inserting into a newest-first list adds exactly the one element and keeps the list newest first |
| Storage.NewerPrepended | src/lib/storage.ts:121 | putting an element at least as new as every other in front of a newest-first list keeps it newest first |
| Storage.SortByRecency | src/lib/storage.ts:121 | the sort is a permutation of its input and orders it by update time, newest first |
| Storage.DistinctCardinality | src/lib/storage.ts:103-106 | a directory listing without repeats has as many names as entries |
| Storage.KeysCardinality | src/lib/storage.ts:103-106 | a directory listing of the store's keys without repeats has one entry per record |
| Storage.GetAllPrompts | src/lib/storage.ts:100-124 | getAllPrompts returns one summary per record, a permutation of the collected summaries, containing every record's summary and nothing else, newest first |
| Storage.PermutedListing | src/lib/storage.ts:106-121 | any rearrangement of the listing has one entry per record, and every entry summarises a stored record |
| Storage.ListingCoversStore | src/lib/storage.ts:106-118 | every stored record's summary appears in the listing |
| Storage.ListingOnlyStore | src/lib/storage.ts:106-118 | every entry of the listing summarises some stored record |
| Security.IsValidName | src/lib/security.ts:25-27 | `^[a-z][a-z0-9-]{0,49}$` matched against the whole name, left to right |
| Security.NameTailMatchesIff | src/lib/security.ts:26 | `[a-z0-9-]{0,n}$` matches the rest of the name exactly when it has at most n characters, all of that class |
| Security.ValidNameCharacterization | src/lib/security.ts:25-27 | a name is valid exactly when it has 1 to 50 characters, starts with a lower-case letter and continues with lower-case letters, digits and hyphens |
| Security.ValidNameHasNoSeparators | src/lib/security.ts:26 | a valid name has no `/`, `.` or `@` |
| Security.ValidNameExamples | src/lib/security.ts:25-27 | `"a"` and `"a1-b"` are valid |
| Security.InvalidNameExamples | src/lib/security.ts:25-27 | `""`, `"1abc"`, `"Abc"` and `"a_b"` are invalid |
| Security.OverlongNameExample | src/lib/security.ts:26 | a name of 51 letters is invalid |
| Security.ApiKeyAt | src/lib/security.ts:2 | `sk-` at the position, then a greedy run of at least 20 characters of `[a-zA-Z0-9_-]` |
| Security.AwsKeyAt | src/lib/security.ts:3 | `AKIA` at the position, then 16 characters of `[A-Z0-9]` |
| Security.GitHubTokenAt | src/lib/security.ts:4 | `ghp_` at the position, then 36 characters of `[a-zA-Z0-9]` |
| Security.PrivateKeyAt | src/lib/security.ts:5 | `-----BEGIN` at the position, then `PRIVATE KEY-----` later on the same line |
| Security.SensitivePatterns | src/lib/security.ts:1-6 | the four rules, API key, AWS key, GitHub token and private key, in the source's order and with its names |
| Security.RunLengthAtLeast | src/lib/security.ts:2 | the greedy run from a position has at least n characters exactly when n characters of the class start there |
| Security.ApiKeyRule | src/lib/security.ts:2 | the API-key rule matches at a position exactly when `sk-` stands there followed by at least 20 characters of `[a-zA-Z0-9_-]` |
| Security.KeyTrailerFrom | src/lib/security.ts:5 | after the header, the private-key rule finds `PRIVATE KEY-----` at some later position exactly when no line terminator comes before it |
| Security.Search | src/lib/security.ts:14 | `test` holds exactly when the pattern matches at some position of the text |
| Security.Warning | src/lib/security.ts:15 | the message "This looks like it might contain a " followed by the rule's name and a full stop |
| Security.FirstWarning | src/lib/security.ts:12-19 | the scan returns null exactly when no rule matches; otherwise it returns the warning naming the first matching rule in list order |
| Security.DetectSensitiveContent | src/lib/security.ts:1-19 | detectSensitiveContent returns null exactly when none of the four rules matches; otherwise it returns the message for the first of them that does |
| Security.ApiKeyTakesPrecedence | src/lib/security.ts:1-16 | content holding an API key is reported as an API key, whatever else it holds |
| Security.KeyThenPrivateKeyHasKey | src/lib/security.ts:2 | the sample text holds an `sk-` key |
| Security.KeyThenPrivateKeyHasPrivateKey | src/lib/security.ts:5 | the sample text holds a PEM private-key header |
| Security.PrecedenceExample | src/lib/security.ts:1-16 | text with both an `sk-` key and a private-key header matches the private-key rule yet is reported as an API key |
| Time.Classify | src/lib/time.ts:14-22 | the four relative rules and the calendar fallback are mutually exclusive and exhaustive: "just now" below one minute (negative elapsed time included), minutes below an hour, hours below a day, days below a week, the calendar date from a week on; each count is the floored quotient and lies in 1..59, 1..23 or 1..6 |
| Time.Render | src/lib/time.ts:19-22 | the label for each rule: "just now", the count followed by its suffix, or the calendar date |
| Time.AgoSuffix | src/lib/time.ts:20-22 | a blank, the unit word, `s` unless the count is one, then " ago" |
| Time.FormatRelativeTime | src/lib/time.ts:11-33 | below one minute the label is "just now"; from a week on it is the calendar date; in between it is the floored count in decimal, a blank, the unit word with an `s` unless the count is one, and "ago" |
| Time.AgoLabelCount | src/lib/time.ts:20-22 | `parseInt` of an "N units ago" label is N, so the label starts with N in decimal followed by a blank |
| Time.SingularLabel | src/lib/time.ts:20-22 | a count of one reads "1 minute ago", "1 hour ago" or "1 day ago" |
| Time.AgoLabelSingular | src/lib/time.ts:20-22 | the label is the singular form exactly when the count is one |
| Time.RelativeLabel | src/lib/time.ts:14-22 | from one minute to a week, the label starts with the floored count of the unit chosen, and is singular exactly when that count is one; the whole text is the count, the unit word, plural unless the count is one, and "ago" |
| Time.JustNowExamples | src/lib/time.ts:19 | 45 seconds ago and 5 seconds in the future are both "just now" |
| Time.AgoExamples | src/lib/time.ts:20-21 | 90 seconds is "1 minute ago" and three hours is "3 hours ago" |
| Time.DayExamples | src/lib/time.ts:22-24 | two days is "2 days ago"; ten days falls to the calendar date |
| Show.ParseNameWithVersion | src/commands/show.ts:9-23 | input without `@` is all name; the name never contains `@` and is the text before the first `@`; a version, when there is one, is at least 1; with exactly one `@` the version is `parseInt` of the rest when that is at least 1 and absent otherwise; with two or more `@` there is no version |
| Show.NameWithoutVersion | src/commands/show.ts:11-13 | `"abc"` is the name `abc` with no version |
| Show.NameBeforeFirstSeparator | src/commands/show.ts:10-22 | whatever follows the first `@`, the name is the text before it |
| Show.CountSeparators | src/commands/show.ts:10-14 | a name without `@`, an `@` and a rest hold one more `@` than the rest |
| Show.VersionAfterSeparator | src/commands/show.ts:14-19 | with a single `@`, the version is `parseInt` of the text after it when that is at least 1, and absent otherwise |
| Show.NoVersionAfterSecondSeparator | src/commands/show.ts:21-22 | with a second `@`, there is no version, even when the text after the first is numeric |
| Show.VersionWithTrailingText | src/commands/show.ts:15-19 | `name@3x` asks for version 3 |
| Show.VersionZero | src/commands/show.ts:15-17 | `name@0` asks for no version |
| Show.VersionNegative | src/commands/show.ts:15-17 | `name@-2` asks for no version |
| Show.TwoSeparators | src/commands/show.ts:21-22 | `name@b@2` is the name with no version |
| Show.TargetVersion | src/commands/show.ts:39 | the requested version, or the number of versions when none was requested |
| Show.ShowCommand | src/commands/show.ts:25-48 | a missing prompt is reported as not found; otherwise the target defaults to the latest version, and show succeeds exactly when the target is in 1..N, printing exactly that version's content, and reports the invalid version with the range otherwise |
| Export.ParseNameWithVersion | src/commands/export.ts:7-20 | the export copy of the parser: input without `@` is all name, the name has no `@`, and a version, when there is one, is at least 1 |
| Export.ParsersAgree | src/commands/export.ts:7-20 | the export copy of the parser and the show copy give the same result on every input |
| Export.Record | src/commands/export.ts:46-52 | the JSON object: the prompt's name and the version's number, timestamp, note and content, and nothing else |
| Export.ExportCommand | src/commands/export.ts:22-57 | a missing prompt is reported as not found; the target defaults to the latest version and is refused outside 1..N; on success plain output is exactly the version's content, and JSON output is exactly the prompt's name and the version's number, timestamp, note and content |
| Export.ExportIgnoresHashes | src/commands/export.ts:44-53 | the stored hashes never reach the output: replacing them leaves every export unchanged |
| Diff.Truthy | src/commands/diff.ts:28-32 | an argument is truthy when it was given and is not the empty string |
| Diff.ArgText | src/commands/diff.ts:38-39 | the text `parseInt` receives; a missing argument is `undefined`, which it reads as the text "undefined" |
| Diff.SelectPair | src/commands/diff.ts:28-40 | no arguments give (N-1, N); a first argument alone gives (parseInt of it, N); a second argument makes both come from `parseInt`, the first even when it is missing or empty |
| Diff.InRange | src/commands/diff.ts:43-50 | the validation condition: neither number is NaN, and both lie in 1..latest |
| Diff.CheckPair | src/commands/diff.ts:43-66 | a pair is refused as invalid exactly when a number is NaN or outside 1..N, and as the same version exactly when it is valid and both numbers are equal; it is refused as missing versions exactly when the numbers are valid and distinct and either content is empty; it is accepted exactly when the numbers are valid and distinct and both contents are non-empty, reverse order included; it then hands on the contents at those positions |
| Diff.DiffCommand | src/commands/diff.ts:10-66 | a missing prompt is reported as not found; a prompt with fewer than 2 versions is refused before the arguments are read; otherwise the chosen pair is checked |
| Diff.DefaultPair | src/commands/diff.ts:28-31 | with no arguments, version N-1 is compared with version N, and this always succeeds when no content is empty |
| Diff.OneArgument | src/commands/diff.ts:32-35 | a single argument names the version compared with the latest |
| Diff.ExplicitPair | src/commands/diff.ts:36-58 | two arguments naming distinct versions in range are compared in the order given, so the newer version may come first |
| Diff.SameVersionRefused | src/commands/diff.ts:55-58 | a version is never compared with itself |
| Diff.SecondWithoutFirst | src/commands/diff.ts:36-53 | a second argument without a first is refused as an invalid version, because the missing first argument parses to NaN |
| Diff.CheckedPairIsVersions | src/commands/diff.ts:60-61 | under the numbering invariant, reading the contents by position agrees with getVersion for both numbers |
| Diff.PositionsAreVersions | src/commands/diff.ts:60-66 | the two contents diffed are those getVersion returns for the two numbers |

## Left out

- File-system I/O is not modelled: JSON reading and writing, `ensureStorage`, and the 0o600 file mode. Each directory is a map, and the `existsSync` checks become map membership.
- Names are map keys exactly as given. The tool builds the file path with ``join(PROMPTS_DIR, `${name}.json`)`` (src/lib/storage.ts:23-25), and `join` resolves `..` and `/`. Show, export, diff and delete pass names that were never validated, and so does rename for its old name (src/commands/show.ts:29-31, src/commands/export.ts:26-28, src/commands/diff.ts:10, src/commands/delete.ts:10,31-32, src/commands/rename.ts:15,31, src/lib/storage.ts:165,180). So `show a/../b` prints b's latest version in the tool, but `Show.ShowCommand` reports `a/../b` as not found. The model has no file paths.
- Concurrent invocations are not modelled. Each operation reads and then writes whole files, so two processes that save at once lose one write: the last writer wins.
- Rename is not atomic in the tool: it writes the new file, then unlinks the old one. The model treats it as one step, so a crash between the two writes is not modelled.
- `generateHash` (src/lib/hash.ts:7-9, the first 8 hex characters of the SHA-256 digest) is the `hash` parameter. Its collisions are not modelled apart: any function is allowed, so a collision shows up as a duplicate reported for different content.
- Timestamps on disk are ISO-8601 strings. The model uses integers, whose order is the order of the instants they stand for.
- The `.json` suffix filter of getAllPrompts is not modelled: `files` lists exactly the store's keys, without repeats.
- Time.FormatRelativeTime: the month-and-day calendar label past a week is a string parameter. It depends on the clock and the locale.
- The line diff rendering of the diff command is not modelled (src/commands/diff.ts:68-86), nor its colours and summary line.
- Console output, `@clack/prompts` messages, the clipboard and `process.exit` are not modelled. A command's failure is an `Err` value naming the message it would print.
- The `Config` interface (src/types/index.ts:16-20) is not modelled. No modelled operation reads it.
- `parseInt` results are exact integers. Float rounding above 2^53 is not modelled, and `-0` is modelled as 0. Both are refused as versions either way.
- Storage.SortByRecency: the contract states a newest-first permutation. The stability of `Array.prototype.sort` among equal update times is not proved, though the insertion used keeps ties in input order.
- Storage.Save: the append branch writes the record under its own `name` field, as `writePrompt` does. The contract for an existing name is stated only when that field equals the key, which every valid store ensures.
- Show.ShowCommand: the success and invalid-version clauses are stated under the numbering invariant, where getVersion's first match is at index target-1. Without the invariant, only the not-found clause is stated.
- Export.ExportCommand: the JSON `version` field is the selected version's own number. The contract states it equals the target under the numbering invariant.
- Export.ParseNameWithVersion: its own contract is weaker than the show copy's. Export.ParsersAgree carries the rest over.
- Storage.GetAllPrompts: the directory order is a parameter, not the order `readdir` happens to return.

=== FILE: diff.dfy ===
/** The diff command: which two versions are compared, and when it refuses. */
module Diff {
  import opened Wrappers
  import opened Numbers
  import opened Types
  import opened Storage

  /** A command-line argument's truthiness: given and not empty. */
  predicate Truthy(arg: Option<string>) {
    arg.Some? && arg.value != ""
  }

  /** The text `parseInt` sees for an argument; a missing one reads as "undefined". */
  function ArgText(arg: Option<string>): string {
    if arg.Some? then arg.value else "undefined"
  }

  /** The requested pair of version numbers; `None` is NaN. */
  datatype Request = Request(from: Option<int>, to: Option<int>)

  /**
   * No arguments compare the previous version with the latest; one argument
   * compares that version with the latest; otherwise both are parsed, the
   * first one even when it is missing or empty.
   */
  function SelectPair(latest: int, v1: Option<string>, v2: Option<string>): (r: Request)
    ensures !Truthy(v2) ==> r.to == Some(latest)
    ensures !Truthy(v1) && !Truthy(v2) ==> r.from == Some(latest - 1)
    ensures Truthy(v1) || Truthy(v2) ==> r.from == ParseInt(ArgText(v1))
    ensures Truthy(v2) ==> r.to == ParseInt(v2.value)
  {
    if !Truthy(v1) && !Truthy(v2) then Request(Some(latest - 1), Some(latest))
    else if Truthy(v1) && !Truthy(v2) then Request(ParseInt(v1.value), Some(latest))
    else Request(ParseInt(ArgText(v1)), ParseInt(ArgText(v2)))
  }

  /** Both numbers are numbers, and name versions 1 to `latest`. */
  predicate InRange(r: Request, latest: int) {
    && r.from.Some? && r.to.Some?
    && 1 <= r.from.value <= latest
    && 1 <= r.to.value <= latest
  }

  /** What is handed on to the line diff. */
  datatype DiffPair = DiffPair(from: int, to: int, oldContent: string, newContent: string)

  /**
   * The checks after the pair is chosen, in the source's order; the contents
   * are read by position in the version list.
   */
  function CheckPair(name: string, vs: seq<PromptVersion>, req: Request): (r: Result<DiffPair, CommandError>)
    ensures !InRange(req, |vs|) <==> r == Err(InvalidVersion(name, |vs|))
    ensures InRange(req, |vs|) && req.from == req.to <==> r == Err(SameVersion)
    ensures r.Ok? <==>
      && InRange(req, |vs|) && req.from != req.to
      && vs[req.from.value - 1].content != ""
      && vs[req.to.value - 1].content != ""
    ensures r.Ok? ==>
      && r.value.from == req.from.value && r.value.to == req.to.value
      && r.value.oldContent == vs[r.value.from - 1].content
      && r.value.newContent == vs[r.value.to - 1].content
    ensures r == Err(VersionsMissing) <==>
      && InRange(req, |vs|) && req.from != req.to
      && (vs[req.from.value - 1].content == "" || vs[req.to.value - 1].content == "")
  {
    if !InRange(req, |vs|) then Err(InvalidVersion(name, |vs|))
    else if req.from == req.to then Err(SameVersion)
    else
      var oldContent := vs[req.from.value - 1].content;
      var newContent := vs[req.to.value - 1].content;
      if oldContent == "" || newContent == "" then Err(VersionsMissing)
      else Ok(DiffPair(req.from.value, req.to.value, oldContent, newContent))
  }

  /** diffCommand, up to rendering: a missing prompt, then a single version, then the pair's checks. */
  function DiffCommand(store: Store, name: string, v1: Option<string>, v2: Option<string>): (r: Result<DiffPair, CommandError>)
    ensures name !in store ==> r == Err(PromptNotFound(name))
    ensures name in store && |store[name].versions| < 2 ==> r == Err(NothingToDiff(name))
    ensures name in store && |store[name].versions| >= 2 ==>
      var vs := store[name].versions;
      r == CheckPair(name, vs, SelectPair(|vs|, v1, v2))
  {
    if name !in store then Err(PromptNotFound(name))
    else
      var vs := store[name].versions;
      var latest := |vs|;
      if latest < 2 then Err(NothingToDiff(name))
      else CheckPair(name, vs, SelectPair(latest, v1, v2))
  }

  /** Every version has non-empty content, the case in which no pair is refused as missing. */
  predicate NoEmptyContent(vs: seq<PromptVersion>) {
    forall i :: 0 <= i < |vs| ==> vs[i].content != ""
  }

  /** With no arguments, the previous version is compared with the latest. */
  lemma DefaultPair(store: Store, name: string, v1: Option<string>, v2: Option<string>)
    requires name in store && |store[name].versions| >= 2
    requires NoEmptyContent(store[name].versions)
    requires !Truthy(v1) && !Truthy(v2)
    ensures var vs := store[name].versions;
      DiffCommand(store, name, v1, v2)
        == Ok(DiffPair(|vs| - 1, |vs|, vs[|vs| - 2].content, vs[|vs| - 1].content))
  {
  }

  /** A single argument names the version compared with the latest. */
  lemma OneArgument(store: Store, name: string, arg: string, k: int)
    requires name in store
    requires NoEmptyContent(store[name].versions)
    requires arg != "" && ParseInt(arg) == Some(k)
    requires 1 <= k < |store[name].versions|
    ensures var vs := store[name].versions;
      DiffCommand(store, name, Some(arg), None)
        == Ok(DiffPair(k, |vs|, vs[k - 1].content, vs[|vs| - 1].content))
  {
    var vs := store[name].versions;
    var req := SelectPair(|vs|, Some(arg), None);
    assert req == Request(Some(k), Some(|vs|));
    assert InRange(req, |vs|) && req.from != req.to;
    assert vs[k - 1].content != "" && vs[|vs| - 1].content != "";
  }

  /**
   * Two arguments that parse to distinct versions in range are compared in
   * the order given, so the older version may come second.
   */
  lemma ExplicitPair(store: Store, name: string, v1: Option<string>, v2: Option<string>, a: int, b: int)
    requires name in store
    requires NoEmptyContent(store[name].versions)
    requires Truthy(v2)
    requires ParseInt(ArgText(v1)) == Some(a) && ParseInt(v2.value) == Some(b)
    requires 1 <= a <= |store[name].versions| && 1 <= b <= |store[name].versions| && a != b
    ensures var vs := store[name].versions;
      DiffCommand(store, name, v1, v2) == Ok(DiffPair(a, b, vs[a - 1].content, vs[b - 1].content))
  {
    var vs := store[name].versions;
    var req := SelectPair(|vs|, v1, v2);
    assert req == Request(Some(a), Some(b));
    assert InRange(req, |vs|) && req.from != req.to;
    assert vs[a - 1].content != "" && vs[b - 1].content != "";
  }

  /** A version is never compared with itself, however it is written. */
  lemma SameVersionRefused(store: Store, name: string, v1: Option<string>, v2: Option<string>, k: int)
    requires name in store && |store[name].versions| >= 2
    requires Truthy(v2)
    requires ParseInt(ArgText(v1)) == Some(k) && ParseInt(v2.value) == Some(k)
    requires 1 <= k <= |store[name].versions|
    ensures DiffCommand(store, name, v1, v2) == Err(SameVersion)
  {
    var vs := store[name].versions;
    var req := SelectPair(|vs|, v1, v2);
    assert req == Request(Some(k), Some(k));
    assert InRange(req, |vs|);
  }

  /**
   * A second argument without a first is refused as an invalid version: the
   * missing or empty first argument parses to NaN.
   */
  lemma SecondWithoutFirst(store: Store, name: string, v1: Option<string>, v2: Option<string>)
    requires name in store && |store[name].versions| >= 2
    requires !Truthy(v1) && Truthy(v2)
    ensures DiffCommand(store, name, v1, v2) == Err(InvalidVersion(name, |store[name].versions|))
  {
    ParseIntNonNumeric(ArgText(v1));
  }

  /**
   * Reading the contents by position agrees with getVersion when the
   * versions are numbered 1, 2, ... in order.
   */
  lemma CheckedPairIsVersions(name: string, p: PromptFile, req: Request)
    requires Contiguous(p.versions)
    ensures var r := CheckPair(name, p.versions, req);
      r.Ok? ==>
        && GetVersion(p, r.value.from) == Some(p.versions[r.value.from - 1])
        && GetVersion(p, r.value.to) == Some(p.versions[r.value.to - 1])
  {
    var r := CheckPair(name, p.versions, req);
    if r.Ok? {
      GetVersionContiguous(p, r.value.from);
      GetVersionContiguous(p, r.value.to);
    }
  }

  /** So the two contents diffed are those getVersion returns for the two numbers. */
  lemma PositionsAreVersions(store: Store, name: string, v1: Option<string>, v2: Option<string>)
    requires name in store && Contiguous(store[name].versions)
    ensures var r := DiffCommand(store, name, v1, v2);
      r.Ok? ==>
        && GetVersion(store[name], r.value.from).Some?
        && GetVersion(store[name], r.value.from).value.content == r.value.oldContent
        && GetVersion(store[name], r.value.to).Some?
        && GetVersion(store[name], r.value.to).value.content == r.value.newContent
  {
    var p := store[name];
    var req := SelectPair(|p.versions|, v1, v2);
    CheckedPairIsVersions(name, p, req);
  }
}

=== FILE: export.dfy ===
/** The export command: one version, as plain text or as a JSON record. */
module Export {
  import opened Wrappers
  import opened Strings
  import opened Numbers
  import opened Types
  import opened Storage
  import Show

  /**
   * The fields a JSON export carries. The content hash is not one of them; a
   * version saved without a note carries `null`, which `None` stands for.
   */
  datatype ExportRecord = ExportRecord(
    name: string,
    version: int,
    timestamp: int,
    note: Option<string>,
    content: string)

  datatype ExportOutput = PlainText(text: string) | Json(record: ExportRecord)

  /** The export command's own copy of the `name@N` parser. */
  function ParseNameWithVersion(input: string): (r: NameVersion)
    ensures '@' !in input ==> r == NameVersion(input, None)
    ensures '@' !in r.name
    ensures r.version.Some? ==> r.version.value >= 1
  {
    var parts := Split(input, '@');
    SplitFirstSegment(input, '@');
    CountZero(input, '@');
    if |parts| == 1 then NameVersion(parts[0], None)
    else if |parts| == 2 then
      var version := ParseInt(parts[1]);
      if version.None? || version.value < 1 then NameVersion(parts[0], None)
      else NameVersion(parts[0], version)
    else NameVersion(parts[0], None)
  }

  /** The two copies of the parser read every input alike. */
  lemma ParsersAgree(input: string)
    ensures ParseNameWithVersion(input) == Show.ParseNameWithVersion(input)
  {
  }

  /** What `--json` prints for a version of a prompt. */
  function Record(p: PromptFile, v: PromptVersion): ExportRecord {
    ExportRecord(p.name, v.version, v.timestamp, v.note, v.content)
  }

  /**
   * exportCommand, up to printing: the same lookups and errors as show; on
   * success, the content alone, or the version's record under `--json`.
   */
  function ExportCommand(store: Store, input: string, json: bool): (r: Result<ExportOutput, CommandError>)
    ensures var nv := ParseNameWithVersion(input);
      nv.name !in store ==> r == Err(PromptNotFound(nv.name))
    ensures var nv := ParseNameWithVersion(input);
      nv.name in store && Contiguous(store[nv.name].versions) ==>
        var p := store[nv.name];
        var target := nv.version.GetOr(|p.versions|);
        && (r.Ok? <==> 1 <= target <= |p.versions|)
        && (r.Err? ==> r.error == InvalidVersion(nv.name, |p.versions|))
        && (r.Ok? ==>
              var v := p.versions[target - 1];
              && (!json ==> r.value == PlainText(v.content))
              && (json ==> r.value == Json(ExportRecord(p.name, target, v.timestamp, v.note, v.content))))
  {
    var nv := ParseNameWithVersion(input);
    if nv.name !in store then Err(PromptNotFound(nv.name))
    else
      var p := store[nv.name];
      var target := nv.version.GetOr(|p.versions|);
      assert Contiguous(p.versions) ==>
          (GetVersion(p, target).Some? <==> 1 <= target <= |p.versions|) &&
          (1 <= target <= |p.versions| ==> GetVersion(p, target) == Some(p.versions[target - 1])) by {
        if Contiguous(p.versions) {
          GetVersionContiguous(p, target);
        }
      }
      match GetVersion(p, target)
      case None => Err(InvalidVersion(nv.name, |p.versions|))
      case Some(v) => if json then Ok(Json(Record(p, v))) else Ok(PlainText(v.content))
  }

  /** A version with its stored hash replaced. */
  function Rehash(v: PromptVersion, h: string): PromptVersion {
    v.(hash := h)
  }

  /**
   * Exports never depend on the stored hashes: replacing every hash of a
   * prompt leaves the output of every export unchanged.
   */
  lemma ExportIgnoresHashes(store: Store, name: string, hashes: seq<string>, input: string, json: bool)
    requires name in store
    requires |hashes| == |store[name].versions|
    ensures var p := store[name];
      var q := p.(versions := seq(|p.versions|, i requires 0 <= i < |p.versions| => Rehash(p.versions[i], hashes[i])));
      ExportCommand(store[name := q], input, json) == ExportCommand(store, input, json)
  {
    var p := store[name];
    var q := p.(versions := seq(|p.versions|, i requires 0 <= i < |p.versions| => Rehash(p.versions[i], hashes[i])));
    var nv := ParseNameWithVersion(input);
    if nv.name == name {
      var target := nv.version.GetOr(|p.versions|);
      FindAgrees(p.versions, q.versions, (v: PromptVersion) => v.version == target);
    }
  }
}

=== FILE: numbers.dfy ===
/**
 * The two JavaScript number conversions the commands rely on: `parseInt(s, 10)`
 * and the decimal text of a non-negative integer in a template literal.
 * Numbers are unbounded integers; `NaN` is `None`.
 */
module Numbers {
  import opened Wrappers
  import opened Strings

  predicate AllDigits(s: string) {
    forall i :: 0 <= i < |s| ==> IsDigit(s[i])
  }

  function DigitValue(c: char): nat
    requires IsDigit(c)
  {
    c as int - '0' as int
  }

  function DigitChar(d: nat): (c: char)
    requires d < 10
    ensures IsDigit(c) && DigitValue(c) == d
  {
    ('0' as int + d) as char
  }

  /** The value of a string of decimal digits, most significant first. */
  function DigitsValue(d: string): nat
    requires AllDigits(d)
    decreases |d|
  {
    if |d| == 0 then 0 else DigitsValue(d[..|d| - 1]) * 10 + DigitValue(d[|d| - 1])
  }

  /** Decimal text of `n`, with no leading zeros, as `${n}` prints it. */
  function NatToString(n: nat): (r: string)
    ensures |r| >= 1 && AllDigits(r)
    ensures DigitsValue(r) == n
    ensures r[0] == '0' ==> r == "0"
  {
    if n < 10 then [DigitChar(n)]
    else
      var r := NatToString(n / 10) + [DigitChar(n % 10)];
      assert r[..|r| - 1] == NatToString(n / 10);
      r
  }

  function IntToString(n: int): string {
    if n < 0 then "-" + NatToString(-n) else NatToString(n)
  }

  /** ECMAScript WhiteSpace and LineTerminator code points, which `parseInt` skips. */
  predicate IsJsWhitespace(c: char) {
    || c == '\t' || c == '\U{B}' || c == '\U{C}' || c == ' ' || c == '\U{A0}'
    || c == '\U{FEFF}' || c == '\U{1680}' || ('\U{2000}' <= c <= '\U{200A}')
    || c == '\U{202F}' || c == '\U{205F}' || c == '\U{3000}'
    || c == '\n' || c == '\r' || c == '\U{2028}' || c == '\U{2029}'
  }

  /** The longest prefix of `s` made of decimal digits. */
  function LeadingDigits(s: string): (r: string)
    ensures |r| <= |s| && r == s[..|r|] && AllDigits(r)
    ensures |r| == |s| || !IsDigit(s[|r|])
  {
    if |s| > 0 && IsDigit(s[0]) then [s[0]] + LeadingDigits(s[1..]) else ""
  }

  /**
   * `parseInt(s, 10)`: skip leading whitespace, read an optional sign, then
   * the longest run of decimal digits; `NaN` (here `None`) when that run is
   * empty. Anything after the digits is ignored.
   */
  function ParseInt(s: string): Option<int> {
    if |s| > 0 && IsJsWhitespace(s[0]) then ParseInt(s[1..]) else ParseSigned(s)
  }

  /** An optional sign followed by digits, as `parseInt` reads them after the blanks. */
  function ParseSigned(t: string): Option<int> {
    var (sign, u) := SplitSign(t);
    Signed(sign, ParseDigits(u))
  }

  /** The sign at the head of `t`, if any, and what follows it. */
  function SplitSign(t: string): (Sign, string) {
    if |t| > 0 && t[0] == '-' then (Minus, t[1..])
    else if |t| > 0 && t[0] == '+' then (Plus, t[1..])
    else (Unsigned, t)
  }

  /** A parsed magnitude under a sign; `NaN` stays `NaN`. */
  function Signed(sign: Sign, magnitude: Option<int>): Option<int> {
    match magnitude
    case None => None
    case Some(v) => if sign == Minus then Some(-v) else Some(v)
  }

  /** The value of the leading digits of `u`, if there are any. */
  function ParseDigits(u: string): Option<int> {
    var digits := LeadingDigits(u);
    if |digits| == 0 then None else Some(DigitsValue(digits))
  }

  predicate AllWhitespace(w: string) {
    forall i :: 0 <= i < |w| ==> IsJsWhitespace(w[i])
  }

  /** The optional sign `parseInt` accepts before the digits. */
  datatype Sign = Unsigned | Plus | Minus {
    function Text(): string {
      match this
      case Unsigned => ""
      case Plus => "+"
      case Minus => "-"
    }
  }

  lemma {:induction false} LeadingDigitsOfDigits(d: string, rest: string)
    requires AllDigits(d)
    requires rest == [] || !IsDigit(rest[0])
    ensures LeadingDigits(d + rest) == d
  {
    if |d| > 0 {
      assert (d + rest)[1..] == d[1..] + rest;
      LeadingDigitsOfDigits(d[1..], rest);
      assert d == [d[0]] + d[1..];
    }
  }

  /**
   * Whitespace, a sign and a run of digits, followed by anything that does not
   * continue the run, parse to the signed value of the digits.
   */
  lemma {:induction false} ParseIntDigits(s: string, w: string, sign: Sign, d: string, rest: string)
    requires s == w + sign.Text() + d + rest
    requires AllWhitespace(w)
    requires |d| >= 1 && AllDigits(d)
    requires rest == [] || !IsDigit(rest[0])
    ensures ParseInt(s) == Some(if sign == Minus then -(DigitsValue(d) as int) else DigitsValue(d))
  {
    var u := d + rest;
    var t := sign.Text() + u;
    var value := if sign == Minus then -(DigitsValue(d) as int) else DigitsValue(d);
    assert s == w + t by {
      ConcatAssociates(w, sign.Text(), d, rest);
    }
    assert ParseSigned(t) == Some(value) by {
      ParseDigitsRun(d, rest);
      SignedDigits(sign, u, DigitsValue(d));
    }
    assert ParseInt(s) == ParseSigned(t) by {
      ParseDigitsRun(d, rest);
      SignedTextStart(sign, u);
      ParseIntAfterBlanks(s, w, t);
    }
  }

  /** `parseInt` only looks at what follows the leading blanks. */
  lemma {:induction false} ParseIntAfterBlanks(s: string, w: string, t: string)
    requires s == w + t
    requires AllWhitespace(w)
    requires t == [] || !IsJsWhitespace(t[0])
    ensures ParseInt(s) == ParseSigned(t)
  {
    if |w| > 0 {
      assert s[0] == w[0] && s[1..] == w[1..] + t;
      ParseIntAfterBlanks(s[1..], w[1..], t);
    } else {
      assert s == t;
    }
  }

  lemma ConcatAssociates(a: string, b: string, c: string, d: string)
    ensures a + b + c + d == a + (b + (c + d))
    ensures a + b + c == a + (b + c)
  {
  }

  lemma {:induction false} ParseDigitsRun(d: string, rest: string)
    requires |d| >= 1 && AllDigits(d)
    requires rest == [] || !IsDigit(rest[0])
    ensures (d + rest)[0] == d[0]
    ensures ParseDigits(d + rest) == Some(DigitsValue(d) as int)
  {
    LeadingDigitsOfDigits(d, rest);
  }

  /** A sign written before text that does not start with a sign is split off again. */
  lemma {:induction false} SplitSignText(sign: Sign, u: string)
    requires u == [] || (u[0] != '+' && u[0] != '-')
    ensures SplitSign(sign.Text() + u) == (sign, u)
  {
    var t := sign.Text() + u;
    match sign
    case Unsigned =>
      assert t == u;
    case Plus =>
      assert t[0] == '+' && t[1..] == u;
    case Minus =>
      assert t[0] == '-' && t[1..] == u;
  }

  /** Neither a sign nor a digit is blank, so `parseInt` starts reading there. */
  lemma {:induction false} SignedTextStart(sign: Sign, u: string)
    requires |u| > 0 && IsDigit(u[0])
    ensures var t := sign.Text() + u; t != [] && !IsJsWhitespace(t[0])
  {
    var t := sign.Text() + u;
    assert t[0] == if sign == Unsigned then u[0] else sign.Text()[0];
  }

  lemma {:induction false} SignedDigits(sign: Sign, u: string, v: int)
    requires |u| > 0 && IsDigit(u[0])
    requires ParseDigits(u) == Some(v)
    ensures ParseSigned(sign.Text() + u) == Some(if sign == Minus then -v else v)
  {
    SplitSignText(sign, u);
  }

  lemma {:induction false} SignedNoDigits(sign: Sign, rest: string)
    requires rest == [] || !IsDigit(rest[0])
    requires sign == Unsigned && rest != [] ==> rest[0] != '+' && rest[0] != '-'
    ensures ParseSigned(sign.Text() + rest) == None
  {
    if rest != [] && (rest[0] == '+' || rest[0] == '-') {
      assert sign != Unsigned;
      var t := sign.Text() + rest;
      assert t[0] == sign.Text()[0] && t[1..] == rest;
      assert LeadingDigits(rest) == "";
    } else {
      SplitSignText(sign, rest);
      assert LeadingDigits(rest) == "";
    }
  }

  /**
   * When whatever follows the whitespace and the sign is not a digit, the
   * result is `NaN`. Without a sign, the first non-blank character must not
   * itself be a sign.
   */
  lemma {:induction false} ParseIntNoDigits(s: string, w: string, sign: Sign, rest: string)
    requires s == w + sign.Text() + rest
    requires AllWhitespace(w)
    requires rest == [] || !IsDigit(rest[0])
    requires sign == Unsigned && rest != [] ==> !IsJsWhitespace(rest[0]) && rest[0] != '+' && rest[0] != '-'
    ensures ParseInt(s) == None
  {
    var t := sign.Text() + rest;
    ConcatAssociates(w, sign.Text(), rest, "");
    assert s == w + t;
    SignedNoDigits(sign, rest);
    ParseIntAfterBlanks(s, w, t);
  }

  /** The decimal text of `n`, followed by a non-digit, parses back to `n`. */
  lemma {:induction false} ParseIntOfNatToString(n: nat, rest: string)
    requires rest == [] || !IsDigit(rest[0])
    ensures ParseInt(NatToString(n) + rest) == Some(n)
  {
    var d := NatToString(n);
    assert d + rest == "" + Unsigned.Text() + d + rest;
    ParseIntDigits(d + rest, "", Unsigned, d, rest);
  }

  /** `parseInt` on text that starts with a letter or punctuation other than a sign is `NaN`. */
  lemma {:induction false} ParseIntNonNumeric(s: string)
    requires s == [] || (!IsDigit(s[0]) && !IsJsWhitespace(s[0]) && s[0] != '+' && s[0] != '-')
    ensures ParseInt(s) == None
  {
    assert s == "" + Unsigned.Text() + s;
    ParseIntNoDigits(s, "", Unsigned, s);
  }

  /** `parseInt` reads the leading integer and ignores what follows it. */
  lemma ParseIntTrailingText(w: string)
    requires AllWhitespace(w)
    ensures ParseInt(w + "3x") == Some(3)
  {
    ParseIntDigits(w + "3x", w, Unsigned, "3", "x");
  }

  lemma ParseIntZero(w: string)
    requires AllWhitespace(w)
    ensures ParseInt(w + "0") == Some(0)
  {
    ParseIntDigits(w + "0", w, Unsigned, "0", "");
  }

  lemma ParseIntNegative(w: string)
    requires AllWhitespace(w)
    ensures ParseInt(w + "-2") == Some(-2)
  {
    ParseIntDigits(w + "-2", w, Minus, "2", "");
  }

  lemma ParseIntPlus(w: string)
    requires AllWhitespace(w)
    ensures ParseInt(w + "+12") == Some(12)
  {
    ParseIntDigits(w + "+12", w, Plus, "12", "");
  }

  lemma ParseIntWord(w: string)
    requires AllWhitespace(w)
    ensures ParseInt(w + "abc") == None
  {
    ParseIntNoDigits(w + "abc", w, Unsigned, "abc");
  }
}

=== FILE: security.dfy ===
/**
 * The name rule and the sensitive-content heuristics, each regular expression
 * written out as a predicate over the text.
 */
module Security {
  import opened Wrappers
  import opened Strings

  // ---------------------------------------------------------------------------
  // Name validation: ^[a-z][a-z0-9-]{0,49}$

  const MaxNameLength := 50

  predicate IsNameChar(c: char) { IsLower(c) || IsDigit(c) || c == '-' }

  /** `[a-z0-9-]{0,n}$` matched against the whole of `s`. */
  predicate NameTailMatches(s: string, n: nat) {
    if |s| == 0 then true
    else n > 0 && IsNameChar(s[0]) && NameTailMatches(s[1..], n - 1)
  }

  /** isValidName: the regular expression, matched left to right. */
  predicate IsValidName(name: string) {
    |name| >= 1 && IsLower(name[0]) && NameTailMatches(name[1..], MaxNameLength - 1)
  }

  lemma {:induction false} NameTailMatchesIff(s: string, n: nat)
    ensures NameTailMatches(s, n) <==> |s| <= n && forall i :: 0 <= i < |s| ==> IsNameChar(s[i])
  {
    if |s| > 0 && n > 0 {
      NameTailMatchesIff(s[1..], n - 1);
      if forall i :: 0 <= i < |s| ==> IsNameChar(s[i]) {
        forall i | 0 <= i < |s| - 1 ensures IsNameChar(s[1..][i]) {
          assert s[1..][i] == s[i + 1];
        }
      }
      if IsNameChar(s[0]) && forall i :: 0 <= i < |s[1..]| ==> IsNameChar(s[1..][i]) {
        forall i | 1 <= i < |s| ensures IsNameChar(s[i]) {
          assert s[i] == s[1..][i - 1];
        }
      }
    }
  }

  /**
   * A name is valid exactly when it has 1 to 50 characters, the first a
   * lower-case letter and the rest lower-case letters, digits or hyphens.
   */
  lemma ValidNameCharacterization(name: string)
    ensures IsValidName(name) <==>
      && 1 <= |name| <= MaxNameLength
      && IsLower(name[0])
      && forall i :: 1 <= i < |name| ==> IsNameChar(name[i])
  {
    if |name| >= 1 {
      NameTailMatchesIff(name[1..], MaxNameLength - 1);
      assert forall i :: 1 <= i < |name| ==> name[i] == name[1..][i - 1];
    }
  }

  /** A valid name has no path separator, no dot and no `@`. */
  lemma ValidNameHasNoSeparators(name: string)
    requires IsValidName(name)
    ensures '/' !in name && '.' !in name && '@' !in name
  {
    ValidNameCharacterization(name);
    forall i | 0 <= i < |name| ensures name[i] != '/' && name[i] != '.' && name[i] != '@' {
      if i > 0 {
        assert IsNameChar(name[i]);
      }
    }
  }

  lemma ValidNameExamples()
    ensures IsValidName("a") && IsValidName("a1-b")
  {
    ValidNameCharacterization("a1-b");
  }

  lemma InvalidNameExamples()
    ensures !IsValidName("") && !IsValidName("1abc") && !IsValidName("Abc") && !IsValidName("a_b")
  {
    ValidNameCharacterization("a_b");
    assert "a_b"[1] == '_';
  }

  /** Fifty-one letters are one too many. */
  lemma OverlongNameExample()
    ensures !IsValidName("aaaaaaaaaaaaaaaaaaaaaaaaaaaaaaaaaaaaaaaaaaaaaaaaaaa")
  {
    var long := "aaaaaaaaaaaaaaaaaaaaaaaaaaaaaaaaaaaaaaaaaaaaaaaaaaa";
    assert |long| == 51;
    ValidNameCharacterization(long);
  }

  // ---------------------------------------------------------------------------
  // Sensitive-content patterns

  /** `[a-zA-Z0-9_-]` */
  predicate IsKeyChar(c: char) { IsAlnum(c) || c == '_' || c == '-' }

  /** `[A-Z0-9]` */
  predicate IsUpperOrDigit(c: char) { IsUpper(c) || IsDigit(c) }

  /** The characters `.` does not match without the `s` flag. */
  predicate IsLineTerminator(c: char) {
    c == '\n' || c == '\r' || c == '\U{2028}' || c == '\U{2029}'
  }

  predicate LiteralAt(s: string, i: nat, lit: string) {
    i + |lit| <= |s| && s[i..i + |lit|] == lit
  }

  /** `cls{n}` at position `i`. */
  predicate RunAt(s: string, i: nat, n: nat, cls: char -> bool) {
    i + n <= |s| && forall j :: i <= j < i + n ==> cls(s[j])
  }

  /** How many characters of class `cls` start at position `i` (what a greedy `cls*` consumes). */
  function RunLength(s: string, i: nat, cls: char -> bool): (n: nat)
    decreases |s| - i
    ensures i + n <= |s| || n == 0
  {
    if i < |s| && cls(s[i]) then 1 + RunLength(s, i + 1, cls) else 0
  }

  lemma {:induction false} RunLengthAtLeast(s: string, i: nat, n: nat, cls: char -> bool)
    requires i <= |s|
    decreases n
    ensures RunLength(s, i, cls) >= n <==> RunAt(s, i, n, cls)
  {
    if n > 0 && i < |s| {
      RunLengthAtLeast(s, i + 1, n - 1, cls);
      if RunLength(s, i, cls) >= n {
        assert RunAt(s, i, n, cls) by {
          forall j | i <= j < i + n ensures cls(s[j]) {
            if j > i {
              assert i + 1 <= j < i + 1 + (n - 1);
            }
          }
        }
      }
    }
  }

  /** `sk-[a-zA-Z0-9_-]{20,}` at position `i`. */
  predicate ApiKeyAt(s: string, i: nat) {
    LiteralAt(s, i, "sk-") && RunLength(s, i + 3, IsKeyChar) >= 20
  }

  /** `AKIA[A-Z0-9]{16}` at position `i`. */
  predicate AwsKeyAt(s: string, i: nat) {
    LiteralAt(s, i, "AKIA") && RunAt(s, i + 4, 16, IsUpperOrDigit)
  }

  /** `ghp_[a-zA-Z0-9]{36}` at position `i`. */
  predicate GitHubTokenAt(s: string, i: nat) {
    LiteralAt(s, i, "ghp_") && RunAt(s, i + 4, 36, IsAlnum)
  }

  /** Whether `PRIVATE KEY-----` occurs at or after `j` with no line terminator before it. */
  function KeyTrailerFrom(s: string, j: nat): (r: bool)
    decreases |s| - j
    ensures r <==> exists k :: j <= k <= |s| && LiteralAt(s, k, "PRIVATE KEY-----") && NoLineTerminator(s, j, k)
  {
    if j > |s| then false
    else if LiteralAt(s, j, "PRIVATE KEY-----") then
      assert NoLineTerminator(s, j, j);
      true
    else if j == |s| || IsLineTerminator(s[j]) then
      assert forall k :: j < k <= |s| ==> !NoLineTerminator(s, j, k) by {
        forall k | j < k <= |s| ensures !NoLineTerminator(s, j, k) {
          assert j < |s| && IsLineTerminator(s[j]);
        }
      }
      false
    else
      var r := KeyTrailerFrom(s, j + 1);
      assert forall k :: j + 1 <= k <= |s| ==> (NoLineTerminator(s, j, k) <==> NoLineTerminator(s, j + 1, k));
      r
  }

  predicate NoLineTerminator(s: string, from: nat, to: nat)
    requires to <= |s|
  {
    forall m :: from <= m < to ==> !IsLineTerminator(s[m])
  }

  /** `-----BEGIN.*PRIVATE KEY-----` at position `i`. */
  predicate PrivateKeyAt(s: string, i: nat) {
    LiteralAt(s, i, "-----BEGIN") && KeyTrailerFrom(s, i + 10)
  }

  /** Whether `at` holds at some position from `i` on: what `RegExp.test` reports. */
  function Search(s: string, i: nat, at: (string, nat) -> bool): (r: bool)
    decreases |s| + 1 - i
    ensures r <==> exists j :: i <= j <= |s| && at(s, j)
  {
    if i > |s| then false else at(s, i) || Search(s, i + 1, at)
  }

  /** A rule of SENSITIVE_PATTERNS: where the pattern matches, and the name it reports. */
  datatype Rule = Rule(at: (string, nat) -> bool, name: string)

  /** SENSITIVE_PATTERNS, in the order they are tried. */
  const SensitivePatterns: seq<Rule> := [
    Rule(ApiKeyAt, "API key"),
    Rule(AwsKeyAt, "AWS key"),
    Rule(GitHubTokenAt, "GitHub token"),
    Rule(PrivateKeyAt, "private key")
  ]

  ghost predicate Matches(rule: Rule, content: string) {
    exists i :: 0 <= i <= |content| && rule.at(content, i)
  }

  function Warning(name: string): string {
    "This looks like it might contain a " + name + "."
  }

  /** The warning for the first rule that matches, if any does. */
  function FirstWarning(rules: seq<Rule>, content: string): (r: Option<string>)
    ensures r.None? <==> forall k :: 0 <= k < |rules| ==> !Matches(rules[k], content)
    ensures r.Some? ==>
      exists k :: 0 <= k < |rules| && Matches(rules[k], content)
        && (forall j :: 0 <= j < k ==> !Matches(rules[j], content))
        && r.value == Warning(rules[k].name)
  {
    if |rules| == 0 then None
    else if Search(content, 0, rules[0].at) then Some(Warning(rules[0].name))
    else
      var r := FirstWarning(rules[1..], content);
      assert forall k :: 1 <= k < |rules| ==> rules[k] == rules[1..][k - 1];
      r
  }

  /** detectSensitiveContent */
  function DetectSensitiveContent(content: string): (r: Option<string>)
    ensures r.None? <==> forall k :: 0 <= k < |SensitivePatterns| ==> !Matches(SensitivePatterns[k], content)
    ensures r.Some? ==>
      exists k :: 0 <= k < |SensitivePatterns| && Matches(SensitivePatterns[k], content)
        && (forall j :: 0 <= j < k ==> !Matches(SensitivePatterns[j], content))
        && r.value == Warning(SensitivePatterns[k].name)
  {
    FirstWarning(SensitivePatterns, content)
  }

  /** The API-key rule matches where `sk-` is followed by at least twenty key characters. */
  lemma ApiKeyRule(s: string, i: nat)
    requires i <= |s|
    ensures ApiKeyAt(s, i) <==> LiteralAt(s, i, "sk-") && RunAt(s, i + 3, 20, IsKeyChar)
  {
    if i + 3 <= |s| {
      RunLengthAtLeast(s, i + 3, 20, IsKeyChar);
    }
  }

  /** An API key anywhere is reported as such, whatever else the content holds. */
  lemma ApiKeyTakesPrecedence(content: string, i: nat)
    requires i <= |content| && ApiKeyAt(content, i)
    ensures DetectSensitiveContent(content) == Some(Warning("API key"))
  {
    assert Matches(SensitivePatterns[0], content);
  }

  /** A key on one line and a private-key header on the next. */
  const KeyThenPrivateKey := "sk-" + "abcdefghijklmnopqrst" + "\n" + "-----BEGIN" + " RSA " + "PRIVATE KEY-----"

  lemma KeyThenPrivateKeyHasKey()
    ensures ApiKeyAt(KeyThenPrivateKey, 0)
  {
    var content := KeyThenPrivateKey;
    var key := "sk-" + "abcdefghijklmnopqrst";
    assert |key| == 23 && |content| == 55;
    ApiKeyRule(content, 0);
    assert content[0..3] == "sk-";
    assert forall j :: 3 <= j < 23 ==> content[j] == key[j];
    assert RunAt(content, 3, 20, IsKeyChar);
  }

  lemma KeyThenPrivateKeyHasPrivateKey()
    ensures PrivateKeyAt(KeyThenPrivateKey, 24)
  {
    var content := KeyThenPrivateKey;
    assert |content| == 55;
    assert content[24..34] == "-----BEGIN";
    assert content[39..55] == "PRIVATE KEY-----";
    assert NoLineTerminator(content, 34, 39);
  }

  /** Content matching both the first and the last rule is reported under the first. */
  lemma PrecedenceExample()
    ensures Matches(SensitivePatterns[3], KeyThenPrivateKey)
    ensures DetectSensitiveContent(KeyThenPrivateKey) == Some(Warning("API key"))
  {
    KeyThenPrivateKeyHasKey();
    KeyThenPrivateKeyHasPrivateKey();
    ApiKeyTakesPrecedence(KeyThenPrivateKey, 0);
    assert |KeyThenPrivateKey| == 55;
  }
}

=== FILE: show.dfy ===
/** The show command: `name@N` parsing and the choice of the version to print. */
module Show {
  import opened Wrappers
  import opened Strings
  import opened Numbers
  import opened Types
  import opened Storage

  /**
   * parseNameWithVersion: the text before the first `@` is the name; a version
   * is taken only when there is exactly one `@` and `parseInt` of what follows
   * it is at least 1. Anything else is "no version", never an error.
   */
  function ParseNameWithVersion(input: string): (r: NameVersion)
    ensures '@' !in input ==> r == NameVersion(input, None)
    ensures '@' !in r.name
    ensures r.name == input || (|r.name| < |input| && input[..|r.name|] == r.name && input[|r.name|] == '@')
    ensures r.version.Some? ==> r.version.value >= 1
    ensures Count(input, '@') == 1 ==>
      |r.name| < |input| &&
      var v := ParseInt(input[|r.name| + 1..]);
      r.version == if v.Some? && v.value >= 1 then v else None
    ensures Count(input, '@') >= 2 ==> r.version.None?
  {
    var parts := Split(input, '@');
    SplitFirstSegment(input, '@');
    CountZero(input, '@');
    if |parts| == 1 then NameVersion(parts[0], None)
    else if |parts| == 2 then
      assert input[|parts[0]| + 1..] == parts[1];
      var version := ParseInt(parts[1]);
      if version.None? || version.value < 1 then NameVersion(parts[0], None)
      else NameVersion(parts[0], version)
    else NameVersion(parts[0], None)
  }

  lemma NameWithoutVersion()
    ensures ParseNameWithVersion("abc") == NameVersion("abc", None)
  {
  }

  /** Whatever follows the first `@`, the name is the text before it. */
  lemma {:induction false} NameBeforeFirstSeparator(input: string, name: string, rest: string)
    requires input == name + "@" + rest
    requires '@' !in name
    ensures ParseNameWithVersion(input).name == name
  {
    var r := ParseNameWithVersion(input);
    assert input[|name|] == '@';
    assert r.name == input[..|name|] == name;
  }

  lemma {:induction false} CountSeparators(name: string, rest: string)
    requires '@' !in name
    ensures Count(name + "@" + rest, '@') == 1 + Count(rest, '@')
  {
    assert name + "@" + rest == name + ("@" + rest);
    CountAppend(name, "@" + rest, '@');
    CountAppend("@", rest, '@');
    assert Count("@", '@') == 1 by {
      assert "@"[1..] == "";
    }
    CountZero(name, '@');
  }

  /** With a single `@`, the version is `parseInt` of the text after it when that is at least 1. */
  lemma {:induction false} VersionAfterSeparator(input: string, name: string, rest: string)
    requires input == name + "@" + rest
    requires '@' !in name && '@' !in rest
    ensures var v := ParseInt(rest);
      ParseNameWithVersion(input).version == if v.Some? && v.value >= 1 then v else None
  {
    NameBeforeFirstSeparator(input, name, rest);
    CountSeparators(name, rest);
    CountZero(rest, '@');
    assert input[|name| + 1..] == rest;
  }

  /** With a second `@`, there is no version, whatever the text says. */
  lemma {:induction false} NoVersionAfterSecondSeparator(input: string, name: string, rest: string)
    requires input == name + "@" + rest
    requires '@' !in name && '@' in rest
    ensures ParseNameWithVersion(input).version == None
  {
    CountSeparators(name, rest);
    CountZero(rest, '@');
  }

  lemma VersionWithTrailingText(name: string)
    requires '@' !in name
    ensures ParseNameWithVersion(name + "@3x") == NameVersion(name, Some(3))
  {
    assert '@' !in "3x";
    NameBeforeFirstSeparator(name + "@3x", name, "3x");
    VersionAfterSeparator(name + "@3x", name, "3x");
    ParseIntTrailingText("");
    assert "" + "3x" == "3x";
  }

  lemma VersionZero(name: string)
    requires '@' !in name
    ensures ParseNameWithVersion(name + "@0") == NameVersion(name, None)
  {
    assert '@' !in "0";
    NameBeforeFirstSeparator(name + "@0", name, "0");
    VersionAfterSeparator(name + "@0", name, "0");
    ParseIntZero("");
    assert "" + "0" == "0";
  }

  lemma VersionNegative(name: string)
    requires '@' !in name
    ensures ParseNameWithVersion(name + "@-2") == NameVersion(name, None)
  {
    assert '@' !in "-2";
    NameBeforeFirstSeparator(name + "@-2", name, "-2");
    VersionAfterSeparator(name + "@-2", name, "-2");
    ParseIntNegative("");
    assert "" + "-2" == "-2";
  }

  lemma TwoSeparators(name: string)
    requires '@' !in name
    ensures ParseNameWithVersion(name + "@b@2") == NameVersion(name, None)
  {
    NameBeforeFirstSeparator(name + "@b@2", name, "b@2");
    assert "b@2"[1] == '@';
    NoVersionAfterSecondSeparator(name + "@b@2", name, "b@2");
  }

  /** The version to show: the one asked for, or the latest. */
  function TargetVersion(p: PromptFile, requested: Option<int>): int {
    requested.GetOr(|p.versions|)
  }

  /**
   * showCommand, up to printing: fails when the prompt is missing, or when the
   * target is not a version of it; otherwise yields that version's content.
   */
  function ShowCommand(store: Store, input: string): (r: Result<string, CommandError>)
    ensures var nv := ParseNameWithVersion(input);
      nv.name !in store ==> r == Err(PromptNotFound(nv.name))
    ensures var nv := ParseNameWithVersion(input);
      nv.name in store && Contiguous(store[nv.name].versions) ==>
        var vs := store[nv.name].versions;
        var target := nv.version.GetOr(|vs|);
        && (r.Ok? <==> 1 <= target <= |vs|)
        && (r.Ok? ==> r.value == vs[target - 1].content)
        && (r.Err? ==> r.error == InvalidVersion(nv.name, |vs|))
  {
    var nv := ParseNameWithVersion(input);
    if nv.name !in store then Err(PromptNotFound(nv.name))
    else
      var p := store[nv.name];
      var target := TargetVersion(p, nv.version);
      assert Contiguous(p.versions) ==>
          (GetVersion(p, target).Some? <==> 1 <= target <= |p.versions|) &&
          (1 <= target <= |p.versions| ==> GetVersion(p, target) == Some(p.versions[target - 1])) by {
        if Contiguous(p.versions) {
          GetVersionContiguous(p, target);
        }
      }
      match GetVersion(p, target)
      case None => Err(InvalidVersion(nv.name, |p.versions|))
      case Some(v) =>
        Ok(v.content)
  }
}

=== FILE: storage.dfy ===
/**
 * The storage engine. The prompts directory is a map from file name (without
 * `.json`) to the record stored in that file; the backup directory is a second
 * such map. The content fingerprint is a parameter `hash`, so it is the same
 * function at every call.
 */
module Storage {
  import opened Wrappers
  import opened Types

  type Store = map<string, PromptFile>

  type Hasher = string -> string

  // ---------------------------------------------------------------------------
  // The record invariant

  /** Version numbers are exactly 1..N, in order. */
  predicate Contiguous(vs: seq<PromptVersion>) {
    forall i :: 0 <= i < |vs| ==> vs[i].version == i + 1
  }

  /** Every stored fingerprint is the fingerprint of its content. */
  predicate HashesMatch(vs: seq<PromptVersion>, hash: Hasher) {
    forall i :: 0 <= i < |vs| ==> vs[i].hash == hash(vs[i].content)
  }

  /** The record stored under `key`: named `key`, non-empty, numbered 1..N, fingerprints current. */
  predicate ValidRecord(key: string, p: PromptFile, hash: Hasher) {
    && p.name == key
    && |p.versions| > 0
    && Contiguous(p.versions)
    && HashesMatch(p.versions, hash)
  }

  predicate ValidStore(store: Store, hash: Hasher) {
    forall key :: key in store ==> ValidRecord(key, store[key], hash)
  }

  // ---------------------------------------------------------------------------
  // Lookups

  /** getPrompt: the record stored for `name`, or null when there is no file. */
  function GetPrompt(store: Store, name: string): (r: Option<PromptFile>)
    ensures r.Some? <==> name in store
    ensures r.Some? ==> r.value == store[name]
  {
    if name in store then Some(store[name]) else None
  }

  /** `s.find(p)`, as the index of the first element satisfying `p`. */
  function Find<T>(s: seq<T>, p: T -> bool): (r: Option<nat>)
    ensures r.Some? ==> r.value < |s| && p(s[r.value])
    ensures r.Some? ==> forall j :: 0 <= j < r.value ==> !p(s[j])
    ensures r.None? ==> forall j :: 0 <= j < |s| ==> !p(s[j])
  {
    if |s| == 0 then None
    else if p(s[0]) then Some(0)
    else match Find(s[1..], p)
      case None => None
      case Some(i) => Some(i + 1)
  }

  /** `Find` only looks at what the predicate looks at. */
  lemma {:induction false} FindAgrees<T>(s: seq<T>, t: seq<T>, p: T -> bool)
    requires |s| == |t|
    requires forall i :: 0 <= i < |s| ==> p(s[i]) == p(t[i])
    ensures Find(s, p) == Find(t, p)
  {
    if |s| > 0 {
      FindAgrees(s[1..], t[1..], p);
    }
  }

  /** getVersion: the first version whose number is `n`, if any. */
  function GetVersion(p: PromptFile, n: int): (r: Option<PromptVersion>)
    ensures r.Some? ==> r.value in p.versions && r.value.version == n
    ensures r.Some? ==> exists i :: 0 <= i < |p.versions| && r.value == p.versions[i]
                                  && forall j :: 0 <= j < i ==> p.versions[j].version != n
    ensures r.None? <==> forall i :: 0 <= i < |p.versions| ==> p.versions[i].version != n
  {
    match Find(p.versions, (v: PromptVersion) => v.version == n)
    case None => None
    case Some(i) => Some(p.versions[i])
  }

  /**
   * Under the contiguity invariant the version numbered `n` is at index
   * `n - 1`, and every number outside 1..N (0 and N+1 among them) finds nothing.
   */
  lemma GetVersionContiguous(p: PromptFile, n: int)
    requires Contiguous(p.versions)
    ensures 1 <= n <= |p.versions| ==> GetVersion(p, n) == Some(p.versions[n - 1])
    ensures GetVersion(p, n).None? <==> n < 1 || n > |p.versions|
  {
    if 1 <= n <= |p.versions| {
      var r := GetVersion(p, n);
      assert p.versions[n - 1].version == n;
      var i :| 0 <= i < |p.versions| && p.versions[i] == r.value;
      assert i == n - 1;
    }
  }

  /** isDuplicate: the number of the first version whose fingerprint equals that of `content`. */
  function IsDuplicate(store: Store, name: string, content: string, hash: Hasher): (r: Option<int>)
    ensures name !in store ==> r.None?
    ensures name in store ==>
      var vs := store[name].versions;
      && (r.None? <==> forall i :: 0 <= i < |vs| ==> vs[i].hash != hash(content))
      && (r.Some? ==> exists i :: 0 <= i < |vs| && vs[i].hash == hash(content) && r.value == vs[i].version
                                && forall j :: 0 <= j < i ==> vs[j].hash != hash(content))
  {
    if name !in store then None
    else
      var vs := store[name].versions;
      var h := hash(content);
      match Find(vs, (v: PromptVersion) => v.hash == h)
      case None => None
      case Some(i) => Some(vs[i].version)
  }

  /**
   * In a valid store, saving content equal to stored version k + 1 is reported
   * as a duplicate of that version or of an earlier one.
   */
  lemma IsDuplicateOfEqualContent(store: Store, name: string, content: string, hash: Hasher, k: nat)
    requires ValidStore(store, hash)
    requires name in store && k < |store[name].versions|
    requires store[name].versions[k].content == content
    ensures var r := IsDuplicate(store, name, content, hash); r.Some? && 1 <= r.value <= k + 1
  {
    var vs := store[name].versions;
    assert ValidRecord(name, store[name], hash);
    assert vs[k].hash == hash(content);
    var r := IsDuplicate(store, name, content, hash);
    var i :| 0 <= i < |vs| && vs[i].hash == hash(content) && r.value == vs[i].version
             && forall j :: 0 <= j < i ==> vs[j].hash != hash(content);
    assert i <= k;
  }

  // ---------------------------------------------------------------------------
  // Saving

  /** The outcome of savePrompt: the new directory and the number it returns. */
  datatype Saved = Saved(store: Store, version: int)

  /**
   * savePrompt: append a version to the record read from `name`, or create the
   * record with version 1. The record is written back under its own `name`
   * field, which in a valid store is `name` itself.
   */
  function Save(store: Store, name: string, content: string, note: Option<string>, now: int, hash: Hasher): (r: Saved)
    ensures name !in store ==>
      && r.store.Keys == store.Keys + {name}
      && (forall k :: k in store ==> r.store[k] == store[k])
      && r.store[name].name == name
      && r.store[name].createdAt == now && r.store[name].updatedAt == now
      && r.store[name].versions == [PromptVersion(1, now, note, content, hash(content))]
      && r.version == 1
    ensures name in store && store[name].name == name ==> r.store.Keys == store.Keys
    ensures name in store && store[name].name == name ==>
      var before, after := store[name], r.store[name];
      && (forall k :: k in store && k != name ==> r.store[k] == store[k])
      && after.name == name
      && after.createdAt == before.createdAt && after.updatedAt == now
      && |after.versions| == |before.versions| + 1
      && after.versions[..|before.versions|] == before.versions
      && after.versions[|before.versions|] == PromptVersion(|before.versions| + 1, now, note, content, hash(content))
      && r.version == |after.versions|
  {
    var h := hash(content);
    if name in store then
      var p := store[name];
      var added := PromptVersion(|p.versions| + 1, now, note, content, h);
      var p' := p.(versions := p.versions + [added], updatedAt := now);
      Saved(store[p'.name := p'], |p'.versions|)
    else
      var p := PromptFile(name, now, now, [PromptVersion(1, now, note, content, h)]);
      Saved(store[name := p], |p.versions|)
  }

  /** Saving keeps every record valid, and the returned number is that of the version just written. */
  lemma SavePreservesInvariant(store: Store, name: string, content: string, note: Option<string>, now: int, hash: Hasher)
    requires ValidStore(store, hash)
    ensures var r := Save(store, name, content, note, now, hash);
      && ValidStore(r.store, hash)
      && name in r.store
      && r.version == |r.store[name].versions|
      && r.store[name].versions[r.version - 1].version == r.version
      && r.store[name].versions[r.version - 1].content == content
  {
    var r := Save(store, name, content, note, now, hash);
    if name in store {
      assert ValidRecord(name, store[name], hash);
      var vs := r.store[name].versions;
      var prior := store[name].versions;
      forall i | 0 <= i < |vs|
        ensures vs[i].version == i + 1 && vs[i].hash == hash(vs[i].content)
      {
        if i < |prior| {
          assert vs[i] == vs[..|prior|][i];
        }
      }
    }
  }

  /**
   * Two saves under a fresh name give versions 1 and 2 holding the two
   * contents, and `updatedAt` does not move backwards when the clock does not.
   */
  lemma SaveTwiceFromFresh(store: Store, name: string, c1: string, c2: string, n1: Option<string>, n2: Option<string>, t1: int, t2: int, hash: Hasher)
    requires name !in store
    requires t1 <= t2
    ensures
      var first := Save(store, name, c1, n1, t1, hash);
      var second := Save(first.store, name, c2, n2, t2, hash);
      var vs := second.store[name].versions;
      && first.version == 1 && second.version == 2
      && |vs| == 2 && vs[0].version == 1 && vs[1].version == 2
      && vs[0].content == c1 && vs[1].content == c2
      && first.store[name].updatedAt <= second.store[name].updatedAt
      && second.store[name].createdAt == t1
  {
    var first := Save(store, name, c1, n1, t1, hash);
    var second := Save(first.store, name, c2, n2, t2, hash);
    assert second.store[name].versions[..1] == first.store[name].versions;
  }

  // ---------------------------------------------------------------------------
  // Deleting, backing up, renaming

  /** deletePrompt: remove the file for `name`; nothing happens when there is none. */
  function Delete(store: Store, name: string): (r: Store)
    ensures r.Keys == store.Keys - {name}
    ensures forall k :: k in r ==> r[k] == store[k]
    ensures name !in store ==> r == store
  {
    store - {name}
  }

  /** backupPrompt: copy the record for `name` over its backup, when there is one. */
  function Backup(store: Store, backups: Store, name: string): (r: Store)
    ensures name in store ==> r.Keys == backups.Keys + {name} && r[name] == store[name]
    ensures forall k :: k in backups && k != name ==> k in r && r[k] == backups[k]
    ensures name !in store ==> r == backups
  {
    if name in store then backups[name := store[name]] else backups
  }

  /** Backing up and then deleting leaves the last record in the backups and none in the store. */
  lemma BackupThenDelete(store: Store, backups: Store, name: string)
    requires name in store
    ensures var b := Backup(store, backups, name); name in b && b[name] == store[name]
    ensures name !in Delete(store, name)
  {
  }

  /** Deleting and backing up keep the invariant of both directories. */
  lemma BackupAndDeletePreserveInvariant(store: Store, backups: Store, name: string, hash: Hasher)
    requires ValidStore(store, hash) && ValidStore(backups, hash)
    ensures ValidStore(Delete(store, name), hash)
    ensures ValidStore(Backup(store, backups, name), hash)
  {
  }

  datatype RenameError = NotFound(name: string) | AlreadyExists(name: string)

  /**
   * renamePrompt: fails when `oldName` has no record or `newName` already has
   * one (so renaming a prompt to its own name fails); otherwise the record,
   * with only its name changed, moves to `newName`. An error leaves the
   * directory as it was.
   */
  function Rename(store: Store, oldName: string, newName: string): (r: Result<Store, RenameError>)
    ensures oldName !in store ==> r == Err(NotFound(oldName))
    ensures oldName in store && newName in store ==> r == Err(AlreadyExists(newName))
    ensures r.Ok? <==> oldName in store && newName !in store
    ensures r.Ok? ==>
      && r.value.Keys == store.Keys - {oldName} + {newName}
      && r.value[newName] == store[oldName].(name := newName)
      && forall k :: k in store && k != oldName ==> r.value[k] == store[k]
  {
    if oldName !in store then Err(NotFound(oldName))
    else if newName in store then Err(AlreadyExists(newName))
    else
      var p := store[oldName].(name := newName);
      Ok(store[p.name := p] - {oldName})
  }

  lemma RenamePreservesInvariant(store: Store, oldName: string, newName: string, hash: Hasher)
    requires ValidStore(store, hash)
    ensures Rename(store, oldName, newName).Ok? ==> ValidStore(Rename(store, oldName, newName).value, hash)
  {
    if Rename(store, oldName, newName).Ok? {
      assert ValidRecord(oldName, store[oldName], hash);
    }
  }

  /**
   * What getPrompt sees after each update: the saved content as the latest
   * version, nothing after a delete, and after a rename the old record under
   * the new name only.
   */
  lemma LookupsAfterUpdates(store: Store, name: string, other: string, content: string, note: Option<string>, now: int, hash: Hasher)
    requires ValidStore(store, hash)
    ensures var saved := Save(store, name, content, note, now, hash).store;
      var latest := GetPrompt(saved, name);
      latest.Some? && latest.value.versions[|latest.value.versions| - 1].content == content
    ensures GetPrompt(Delete(store, name), name) == None
    ensures var renamed := Rename(store, name, other);
      renamed.Ok? ==>
        && GetPrompt(renamed.value, name) == None
        && GetPrompt(renamed.value, other) == Some(store[name].(name := other))
  {
    SavePreservesInvariant(store, name, content, note, now, hash);
  }

  // ---------------------------------------------------------------------------
  // Listing

  function Summarize(p: PromptFile): PromptSummary {
    PromptSummary(p.name, |p.versions|, p.updatedAt)
  }

  /** Most recently updated first. */
  predicate NewestFirst(s: seq<PromptSummary>) {
    forall i, j :: 0 <= i < j < |s| ==> s[i].updatedAt >= s[j].updatedAt
  }

  /** The summaries of the records named by `files`, in that order. */
  function Listing(store: Store, files: seq<string>): (r: seq<PromptSummary>)
    requires forall f :: f in files ==> f in store
    ensures |r| == |files|
    ensures forall j :: 0 <= j < |files| ==> r[j] == Summarize(store[files[j]])
  {
    if |files| == 0 then []
    else Listing(store, files[..|files| - 1]) + [Summarize(store[files[|files| - 1]])]
  }

  /**
   * Inserts `x` before the first element that is not newer than it, so that
   * among equal timestamps `x` comes first.
   */
  function InsertByRecency(x: PromptSummary, s: seq<PromptSummary>): (r: seq<PromptSummary>)
    ensures multiset(r) == multiset(s) + multiset{x}
    ensures forall y :: y in r ==> y == x || y in s
    ensures NewestFirst(s) ==> NewestFirst(r)
  {
    if |s| == 0 || s[0].updatedAt <= x.updatedAt then
      NewerPrepended(x, s);
      [x] + s
    else
      var tail := InsertByRecency(x, s[1..]);
      assert s == [s[0]] + s[1..];
      NewerPrepended(s[0], tail);
      [s[0]] + tail
  }

  /** Putting in front of a newest-first list an element at least as new as all of it keeps it so. */
  lemma NewerPrepended(h: PromptSummary, t: seq<PromptSummary>)
    ensures NewestFirst(t) && (forall y :: y in t ==> y.updatedAt <= h.updatedAt) ==> NewestFirst([h] + t)
  {
    var s := [h] + t;
    if !NewestFirst(t) || exists y :: y in t && y.updatedAt > h.updatedAt {
      return;
    }
    forall i, j | 0 <= i < j < |s|
      ensures s[i].updatedAt >= s[j].updatedAt
    {
      if i == 0 {
        assert s[j] == t[j - 1] && s[j] in t;
      } else {
        assert s[i] == t[i - 1] && s[j] == t[j - 1];
      }
    }
  }

  /** The stable sort of getAllPrompts: newest first, ties in their original order. */
  function SortByRecency(s: seq<PromptSummary>): (r: seq<PromptSummary>)
    ensures multiset(r) == multiset(s)
    ensures NewestFirst(r)
  {
    if |s| == 0 then []
    else
      assert s == [s[0]] + s[1..];
      InsertByRecency(s[0], SortByRecency(s[1..]))
  }

  lemma {:induction false} DistinctCardinality(files: seq<string>)
    requires forall i, j :: 0 <= i < j < |files| ==> files[i] != files[j]
    ensures |(set f | f in files)| == |files|
  {
    if |files| > 0 {
      var rest := files[1..];
      DistinctCardinality(rest);
      assert (set f | f in files) == (set f | f in rest) + {files[0]};
      assert files[0] !in rest;
    }
  }

  /**
   * getAllPrompts: one summary per record (`files` is the directory listing,
   * in the order the directory returns it), newest first.
   */
  method GetAllPrompts(store: Store, files: seq<string>) returns (prompts: seq<PromptSummary>)
    requires forall k :: k in store <==> k in files
    requires forall i, j :: 0 <= i < j < |files| ==> files[i] != files[j]
    ensures |prompts| == |store|
    ensures multiset(prompts) == multiset(Listing(store, files))
    ensures forall k :: k in store ==> Summarize(store[k]) in prompts
    ensures forall x :: x in prompts ==> exists k :: k in store && x == Summarize(store[k])
    ensures NewestFirst(prompts)
  {
    var collected: seq<PromptSummary> := [];
    var i := 0;
    while i < |files|
      invariant 0 <= i <= |files|
      invariant |collected| == i
      invariant forall j :: 0 <= j < i ==> collected[j] == Summarize(store[files[j]])
    {
      collected := collected + [Summarize(store[files[i]])];
      i := i + 1;
    }
    assert collected == Listing(store, files);
    prompts := SortByRecency(collected);
    PermutedListing(store, files, prompts);
  }

  /** A duplicate-free listing of the keys has one entry per record. */
  lemma KeysCardinality(store: Store, files: seq<string>)
    requires forall k :: k in store <==> k in files
    requires forall i, j :: 0 <= i < j < |files| ==> files[i] != files[j]
    ensures |files| == |store|
  {
    assert store.Keys == (set f | f in files);
    DistinctCardinality(files);
    assert |store| == |store.Keys|;
  }

  /** Any arrangement of the listing has one entry per record and only those. */
  lemma PermutedListing(store: Store, files: seq<string>, prompts: seq<PromptSummary>)
    requires forall k :: k in store <==> k in files
    requires forall i, j :: 0 <= i < j < |files| ==> files[i] != files[j]
    requires multiset(prompts) == multiset(Listing(store, files))
    ensures |prompts| == |store|
    ensures forall k :: k in store ==> Summarize(store[k]) in prompts
    ensures forall x :: x in prompts ==> exists k :: k in store && x == Summarize(store[k])
  {
    var listing := Listing(store, files);
    assert |prompts| == |multiset(prompts)| == |multiset(listing)| == |files|;
    KeysCardinality(store, files);
    ListingCoversStore(store, files, prompts);
    ListingOnlyStore(store, files, prompts);
  }

  lemma ListingCoversStore(store: Store, files: seq<string>, prompts: seq<PromptSummary>)
    requires forall k :: k in store <==> k in files
    requires multiset(prompts) == multiset(Listing(store, files))
    ensures forall k :: k in store ==> Summarize(store[k]) in prompts
  {
    var listing := Listing(store, files);
    forall k | k in store
      ensures Summarize(store[k]) in prompts
    {
      var j :| 0 <= j < |files| && files[j] == k;
      assert listing[j] in multiset(prompts);
    }
  }

  lemma ListingOnlyStore(store: Store, files: seq<string>, prompts: seq<PromptSummary>)
    requires forall k :: k in files ==> k in store
    requires multiset(prompts) == multiset(Listing(store, files))
    ensures forall x :: x in prompts ==> exists k :: k in store && x == Summarize(store[k])
  {
    var listing := Listing(store, files);
    forall x | x in prompts
      ensures exists k :: k in store && x == Summarize(store[k])
    {
      assert x in multiset(listing);
      var j :| 0 <= j < |listing| && listing[j] == x;
      assert files[j] in store;
    }
  }
}

=== FILE: strings.dfy ===
/** Character classes and the one-character `split` used on command arguments. */
module Strings {

  predicate IsLower(c: char) { 'a' <= c <= 'z' }

  predicate IsUpper(c: char) { 'A' <= c <= 'Z' }

  predicate IsDigit(c: char) { '0' <= c <= '9' }

  predicate IsAlnum(c: char) { IsLower(c) || IsUpper(c) || IsDigit(c) }

  /** Number of occurrences of `c` in `s`. */
  function Count(s: string, c: char): nat {
    if |s| == 0 then 0 else (if s[0] == c then 1 else 0) + Count(s[1..], c)
  }

  lemma {:induction false} CountZero(s: string, c: char)
    ensures Count(s, c) == 0 <==> c !in s
  {
    if |s| > 0 {
      CountZero(s[1..], c);
      assert s == [s[0]] + s[1..];
    }
  }

  lemma {:induction false} CountAppend(a: string, b: string, c: char)
    ensures Count(a + b, c) == Count(a, c) + Count(b, c)
  {
    if |a| > 0 {
      assert (a + b)[1..] == a[1..] + b;
      CountAppend(a[1..], b, c);
    } else {
      assert a + b == b;
    }
  }

  /** `parts.join(sep)`. */
  function Join(parts: seq<string>, sep: char): string {
    if |parts| == 0 then ""
    else if |parts| == 1 then parts[0]
    else parts[0] + [sep] + Join(parts[1..], sep)
  }

  /**
   * `s.split(sep)` for a one-character separator: the maximal separator-free
   * segments, one more than there are separators; the empty string splits
   * into one empty segment.
   */
  function Split(s: string, sep: char): (parts: seq<string>)
    ensures |parts| == Count(s, sep) + 1
    ensures forall i :: 0 <= i < |parts| ==> sep !in parts[i]
    ensures Join(parts, sep) == s
  {
    if |s| == 0 then [""]
    else
      var rest := Split(s[1..], sep);
      if s[0] == sep then
        assert Join([""] + rest, sep) == [sep] + Join(rest, sep);
        [""] + rest
      else
        var head := [s[0]] + rest[0];
        var parts := [head] + rest[1..];
        assert s == [s[0]] + s[1..];
        assert Join(parts, sep) == [s[0]] + Join(rest, sep) by {
          if |rest| > 1 {
            assert parts[1..] == rest[1..];
          }
        }
        parts
  }

  /**
   * The first segment of a split is the text before the first separator:
   * either the whole string, or followed in `s` by the separator.
   */
  lemma SplitFirstSegment(s: string, sep: char)
    ensures var parts := Split(s, sep);
      && sep !in parts[0]
      && (|parts| == 1 ==> s == parts[0])
      && (|parts| >= 2 ==> s == parts[0] + [sep] + Join(parts[1..], sep))
      && (|parts| == 2 ==> s == parts[0] + [sep] + parts[1])
      && (|parts| >= 2 ==> |parts[0]| < |s| && s[..|parts[0]|] == parts[0] && s[|parts[0]|] == sep)
  {
    var parts := Split(s, sep);
    if |parts| >= 2 {
      var tail := [sep] + Join(parts[1..], sep);
      assert s == parts[0] + tail;
      assert s[..|parts[0]|] == parts[0];
      assert s[|parts[0]|] == tail[0];
    }
  }
}

=== FILE: time.dfy ===
/**
 * formatRelativeTime, for the elapsed milliseconds `now - then`. Beyond a week
 * the label is a calendar date, which this model takes as given.
 */
module Time {
  import opened Wrappers
  import opened Numbers

  const MsPerMinute := 60000
  const MsPerHour := 3600000
  const MsPerDay := 86400000

  datatype Unit = Minute | Hour | Day

  /** Which rule produced the label. */
  datatype Elapsed = JustNow | Ago(count: int, unit: Unit) | CalendarDate

  function UnitMs(u: Unit): int {
    match u
    case Minute => MsPerMinute
    case Hour => MsPerHour
    case Day => MsPerDay
  }

  /** The count at which the next, coarser rule takes over. */
  function UnitLimit(u: Unit): int {
    match u
    case Minute => 60
    case Hour => 24
    case Day => 7
  }

  function UnitName(u: Unit): string {
    match u
    case Minute => "minute"
    case Hour => "hour"
    case Day => "day"
  }

  /**
   * The rules tried in order on the floored minute, hour and day counts
   * (Dafny's `/` by a positive constant is `Math.floor` of the quotient).
   */
  function Classify(diffMs: int): (e: Elapsed)
    ensures e == JustNow <==> diffMs < MsPerMinute
    ensures e.Ago? && e.unit == Minute <==> MsPerMinute <= diffMs < MsPerHour
    ensures e.Ago? && e.unit == Hour <==> MsPerHour <= diffMs < MsPerDay
    ensures e.Ago? && e.unit == Day <==> MsPerDay <= diffMs < 7 * MsPerDay
    ensures e == CalendarDate <==> diffMs >= 7 * MsPerDay
    ensures e.Ago? ==> e.count == diffMs / UnitMs(e.unit) && 1 <= e.count < UnitLimit(e.unit)
  {
    var diffMins := diffMs / MsPerMinute;
    var diffHours := diffMs / MsPerHour;
    var diffDays := diffMs / MsPerDay;
    if diffMins < 1 then JustNow
    else if diffMins < 60 then Ago(diffMins, Minute)
    else if diffHours < 24 then Ago(diffHours, Hour)
    else if diffDays < 7 then Ago(diffDays, Day)
    else CalendarDate
  }

  /** The label text; `calendarDate` is what the month-and-day fallback prints. */
  function Render(e: Elapsed, calendarDate: string): string {
    match e
    case JustNow => "just now"
    case Ago(n, u) => IntToString(n) + AgoSuffix(n, u)
    case CalendarDate => calendarDate
  }

  /** What follows the count: the unit, plural unless the count is one, then "ago". */
  function AgoSuffix(n: int, u: Unit): string {
    " " + UnitName(u) + (if n == 1 then "" else "s") + " ago"
  }

  function FormatRelativeTime(diffMs: int, calendarDate: string): (text: string)
    ensures diffMs < MsPerMinute ==> text == "just now"
    ensures diffMs >= 7 * MsPerDay ==> text == calendarDate
    ensures var e := Classify(diffMs);
      e.Ago? ==> text == NatToString(e.count) + " " + UnitName(e.unit) + (if e.count == 1 then "" else "s") + " ago"
  {
    Render(Classify(diffMs), calendarDate)
  }

  /** An "N units ago" label reads back, through `parseInt`, as N. */
  lemma {:induction false} AgoLabelCount(n: int, u: Unit, calendarDate: string)
    requires n >= 1
    ensures ParseInt(Render(Ago(n, u), calendarDate)) == Some(n)
  {
    var suffix := AgoSuffix(n, u);
    assert Render(Ago(n, u), calendarDate) == NatToString(n) + suffix;
    assert suffix[0] == ' ';
    ParseIntOfNatToString(n, suffix);
  }

  /** A count of one reads "1 minute ago", "1 hour ago" or "1 day ago". */
  lemma SingularLabel(u: Unit, calendarDate: string)
    ensures Render(Ago(1, u), calendarDate) == "1 " + UnitName(u) + " ago"
  {
    assert IntToString(1) == "1";
    assert AgoSuffix(1, u) == " " + UnitName(u) + " ago";
  }

  /** The label is the singular one exactly when the count is one. */
  lemma {:induction false} AgoLabelSingular(n: int, u: Unit, calendarDate: string)
    requires n >= 1
    ensures Render(Ago(n, u), calendarDate) == "1 " + UnitName(u) + " ago" <==> n == 1
  {
    SingularLabel(u, calendarDate);
    if n != 1 {
      AgoLabelCount(n, u, calendarDate);
      AgoLabelCount(1, u, calendarDate);
    }
  }

  /** Between a minute and a week, the label is "N units ago" for the floored count N. */
  lemma RelativeLabel(diffMs: int, calendarDate: string)
    requires MsPerMinute <= diffMs < 7 * MsPerDay
    ensures var e := Classify(diffMs);
      var text := FormatRelativeTime(diffMs, calendarDate);
      && e.Ago?
      && ParseInt(text) == Some(diffMs / UnitMs(e.unit))
      && (text == "1 " + UnitName(e.unit) + " ago" <==> diffMs / UnitMs(e.unit) == 1)
      && text == NatToString(e.count) + " " + UnitName(e.unit) + (if e.count == 1 then "" else "s") + " ago"
  {
    var e := Classify(diffMs);
    AgoLabelCount(e.count, e.unit, calendarDate);
    AgoLabelSingular(e.count, e.unit, calendarDate);
  }

  lemma JustNowExamples(calendarDate: string)
    ensures FormatRelativeTime(45000, calendarDate) == "just now"
    ensures FormatRelativeTime(-5000, calendarDate) == "just now"
  {
  }

  lemma AgoExamples(calendarDate: string)
    ensures FormatRelativeTime(90000, calendarDate) == "1 minute ago"
    ensures FormatRelativeTime(3 * MsPerHour, calendarDate) == "3 hours ago"
  {
    assert NatToString(1) == "1";
    assert NatToString(3) == "3";
  }

  lemma DayExamples(calendarDate: string)
    ensures FormatRelativeTime(2 * MsPerDay, calendarDate) == "2 days ago"
    ensures FormatRelativeTime(10 * MsPerDay, calendarDate) == calendarDate
  {
    assert NatToString(2) == "2";
  }
}

=== FILE: types.dfy ===
/**
 * The persisted records of the prompt store. Instants are integers
 * (milliseconds since the epoch) standing for the ISO-8601 strings on disk.
 */
module Types {
  import opened Wrappers

  /** One immutable snapshot of a prompt; `hash` fingerprints `content`. */
  datatype PromptVersion = PromptVersion(
    version: int,
    timestamp: int,
    note: Option<string>,
    content: string,
    hash: string)

  /** A named prompt with its whole version history, oldest first. */
  datatype PromptFile = PromptFile(
    name: string,
    createdAt: int,
    updatedAt: int,
    versions: seq<PromptVersion>)

  /** The listing row for one prompt. */
  datatype PromptSummary = PromptSummary(name: string, versionCount: nat, updatedAt: int)

  /** What `name@N` parses to: the name, and the version when one was given. */
  datatype NameVersion = NameVersion(name: string, version: Option<int>)

  /** The failures a command reports before it exits. */
  datatype CommandError =
    | PromptNotFound(name: string)
    | InvalidVersion(name: string, latest: int)
    | NothingToDiff(name: string)
    | SameVersion
    | VersionsMissing
}

=== FILE: wrappers.dfy ===
/** Optional values and error results, standing for the source's `null` returns and thrown errors. */
module Wrappers {

  /** `T | null`: the value, or nothing. */
  datatype Option<+T> = None | Some(value: T) {

    /** The `??` operator: the value, or `default` when there is none. */
    function GetOr(default: T): T {
      match this
      case Some(v) => v
      case None => default
    }
  }

  /** The outcome of an operation that may reject its input with an error. */
  datatype Result<+T, +E> = Ok(value: T) | Err(error: E)
}
